=== FILE: README.md ===
# SEO task orchestration and on-page benchmark — a Dafny model

This project models the two pieces of pure logic in a NestJS service that talks to the DataForSEO API.

1. **The submit/fetch decisions of `SeoService`** (`seo_service.dfy`).
   - `postTask` guards on credentials and POSTs a payload. It accepts or rejects the reply and resolves with the first task's id.
   - `getTaskResult` GETs `endpoint/taskId` and resolves with the first task's `result`.
   - Both wrap the round trip in a `try` whose `catch` rethrows every error as a 500.
   - `fetchKeywordsData` posts a keyword. It checks credentials *inside* its `try`, so missing credentials surface as a 500.
   - The four flows `getPageSchema`, `getSiteAudit`, `getContentAnalysis` and `getEntityGap` each pick an endpoint and a payload. Each submits once, then fetches once with the returned id.
2. **The on-page benchmark** (`on_page_benchmark.dfy`, `on_page_input.dfy`). This is the static `OnPageBenchmarkSchema` rule set: a weight table plus five metrics. The model proves it well formed and proves that its metrics agree with the fields of `CreateOnPageDto`.

The HTTP client and the remote provider are a parameter, `Provider = Request -> Exchange`.
- An `Exchange` is one of three things: a response (status plus optional body), an observable that completed without a value, or a rejection.
- Every service operation returns a `Step`. A `Step` holds the outcome (a `Result` whose error is a `Fault`) and the list of requests sent, in order.
- Because the requests are recorded, contracts can say "no request is made" and "nothing is fetched after a failed submit".
- `Fault` distinguishes the errors the code throws: the plain credentials `Error`, `HttpException` 500 and 502, a `TypeError` from reading a property of `undefined`, a rejection from the HTTP client, and the `EmptyError` that `firstValueFrom` rejects with when no response arrives.
- Each `try` block is its own function (`PostTaskTry`, `GetTaskResultTry`, `FetchKeywordsDataTry`). `CatchAll` models the `catch`.

Supporting modules:
- `Wrappers`: `Option` for possibly-`undefined` values and `Result` for promises.
- `Json`: payload values. Object members are an ordered key/value list, and `Member` is property access on them.
- `AssocList`: ordered key/value lists that stand for the own properties of JavaScript object literals whose keys are not integer-like, with own-property access as `Lookup`.

Behaviour of the code worth knowing:
- No operation rejects with 502. Each `catch` rethrows every error as 500, including the 502 thrown in its own `try`.
- `postTask` resolves with `tasks[0].id` even when that field is absent. The fetch that follows then requests `endpoint/undefined` (`IdText`).
- The code has no polling loop, no mapping of the provider's own status codes, and no scoring. `getTaskResult` is a single round trip, and the benchmark is only a rule set.
- The weights are 0.7, 0.2 and 0.1, which sum to exactly 1 over the reals.

## Model

| member | source | states |
|---|---|---|
| SeoService.PostTask | src/seo/seo.service.ts:46-68 | Without both credentials (a missing or empty value is falsy), it fails with the plain credentials error and sends no request. Otherwise it sends exactly one POST of the payload to the endpoint. It succeeds iff the reply has status 200, a body, and a non-empty `tasks` array. On success the value is the first task's id. Every other failure is a 500. |
| SeoService.CatchAll | src/seo/seo.service.ts:64-67 | This is the `catch` block shared by `postTask`, `getTaskResult` (lines 81-84) and `fetchKeywordsData` (lines 40-43). Every thrown error becomes a 500, whatever its kind, and a resolved value passes through unchanged. |
| SeoService.PostTaskTry | src/seo/seo.service.ts:51-63 | The `try` body succeeds exactly on an accepted reply, and then yields the first task's id. A reply that is not accepted throws the 502. A client rejection propagates as such, and an empty observable throws `EmptyError`. |
| SeoService.PostTaskIgnoresLaterTasks | src/seo/seo.service.ts:63 | A 200 reply whose tasks start with `first` yields `first.id`, whatever tasks follow. |
| SeoService.GetTaskResult | src/seo/seo.service.ts:70-85 | It sends exactly one GET of `endpoint + "/" + taskId`, whatever the credentials. It succeeds iff the reply has status 200, a body, and a `tasks` array. The value is the first task's `result`, or nothing when `tasks` is empty. Every failure, the 502 included, is a 500. |
| SeoService.GetTaskResultTry | src/seo/seo.service.ts:71-80 | The `try` body succeeds exactly on a readable reply, and then yields the first task's `result` or nothing. A status other than 200 throws the 502. A 200 reply without a body or without `tasks` throws a `TypeError`. A client rejection propagates as such, and an empty observable throws `EmptyError`. |
| SeoService.EmptyTasksFetchNothing | src/seo/seo.service.ts:80 | A 200 reply with an empty `tasks` array yields "no result", not an error. |
| SeoService.FetchIgnoresCredentials | src/seo/seo.service.ts:70-85 | Two fetches whose replies are equal have equal outcomes, whatever credentials each carried: there is no credential check. |
| SeoService.FetchKeywordsDataTry | src/seo/seo.service.ts:21-39 | Inside the `try`, missing credentials throw the plain error before any request. Otherwise one POST of `{keyword}` to `keywords_data` is sent. It succeeds iff a response arrives with status 200, and then yields the body unchanged. A client rejection propagates as such. Every other failure, an empty observable included, is the 502. |
| SeoService.FetchKeywordsData | src/seo/seo.service.ts:20-44 | Missing credentials give a 500 and send no request. Otherwise it sends one POST. It succeeds iff a response arrives with status 200, and then returns the response body unchanged. Every failure is a 500. |
| SeoService.SubmitThenFetch | src/seo/seo.service.ts:88-128 | This is the pattern the four flows share. Without credentials it fails with the credentials error and sends nothing. If the POST is not accepted, it fails with 500 after that one request and fetches nothing. Otherwise it sends exactly the POST and then the GET of the returned id. Its outcome is the fetch's, so a failure is always a credentials error or a 500. |
| SeoService.MissingIdFetchesUndefined | src/seo/seo.service.ts:63-73 | When the first task of an accepted submission has no id, the flow still fetches. Its second request is for `endpoint + "/undefined"`. |
| SeoService.GetPageSchema | src/seo/seo.service.ts:88-92 | It follows the submit-then-fetch contract with `on_page/instant_pages` for both steps and the payload `[{target: url}]`. |
| SeoService.SiteAuditPayload | src/seo/seo.service.ts:95-102 | The crawl payload is a one-element array whose task object has exactly the members `target` and `max_crawl_pages`, in that order. Reading `target` gives the domain. Reading `max_crawl_pages` gives the given limit, or 50 when none is given. |
| SeoService.GetSiteAudit | src/seo/seo.service.ts:95-107 | It follows the submit-then-fetch contract: it submits to `on_page/task_post` and fetches from `on_page/task_get`, with the crawl payload. |
| SeoService.SiteAuditDefaultsTo50 | src/seo/seo.service.ts:95 | Omitting the crawl limit behaves exactly like passing 50. |
| SeoService.GetContentAnalysis | src/seo/seo.service.ts:110-114 | It follows the submit-then-fetch contract with `content_analysis/analyze` for both steps and the payload `[{url}]`. |
| SeoService.EntityGapPayload | src/seo/seo.service.ts:119-124 | The entity-gap payload is a one-element array whose task object has exactly the members `target` and `targets_compare`, in that order. Reading `target` gives the target. Reading `targets_compare` gives an array that reads back as exactly the competitor list. |
| SeoService.GetEntityGap | src/seo/seo.service.ts:117-128 | It follows the submit-then-fetch contract with `content_analysis/competitors` for both steps. With credentials, the submitted payload's `targets_compare` reads back as exactly the competitor list. |
| Json.StringArray | src/seo/seo.service.ts:122 | The competitor list becomes a JSON array of the same length with the i-th string at position i. |
| Json.AsStrings | src/seo/seo.service.ts:122 | A JSON array reads back as strings iff every element is a string, keeping length and contents. |
| Json.StringArrayRoundTrip | src/seo/seo.service.ts:122 | Reading back an embedded string list gives the original list. |
| AssocList.Lookup | src/seo/schemas/on-page-benchmark.schema.ts:2-6 | Own-property access on an object literal, for a key that is not integer-like, is undefined iff no entry declares the key. A value it returns is the value of an entry with that key. |
| OnPageBenchmark.MetricWeightResolves | src/seo/schemas/on-page-benchmark.schema.ts:1-38 | In any well-formed rule set, every metric's weight class resolves to a strictly positive weight. |
| OnPageBenchmark.BenchmarkWeightTable | src/seo/schemas/on-page-benchmark.schema.ts:2-6 | The weight table is high, medium, low in that order, with weights 0.7, 0.2 and 0.1. All are strictly positive and they sum to exactly 1 over the reals. |
| OnPageBenchmark.BenchmarkKeysDistinct | src/seo/schemas/on-page-benchmark.schema.ts:1-38 | No weight class and no metric key is declared twice. |
| OnPageBenchmark.BenchmarkMetricsOk | src/seo/schemas/on-page-benchmark.schema.ts:7-37 | Each metric has both healthy bounds or an expected value, never both and never neither. Every range satisfies 0 < min < max. Every weight names a declared weight class. |
| OnPageBenchmark.BenchmarkWellFormed | src/seo/schemas/on-page-benchmark.schema.ts:1-38 | The benchmark constant satisfies the well-formedness predicate. |
| OnPageBenchmark.BenchmarkMetricOrder | src/seo/schemas/on-page-benchmark.schema.ts:7-37 | There are exactly five metrics: title_length, meta_description_length, h1_present, content_word_count, internal_links, in that order. |
| OnPageBenchmark.BenchmarkExactMetric | src/seo/schemas/on-page-benchmark.schema.ts:20-24 | A metric is exact-match iff its key is h1_present, and h1_present expects `true`. |
| OnPageInput.BenchmarkReadsInput | src/seo/dto/create-on-page.dto.ts:7-20 | Every benchmark metric key is a field of the on-page input DTO. It is a numeric field for range metrics and a boolean field for the exact-match metric. |

## Left out

- HTTP transport: `HttpService`, `firstValueFrom`/`toPromise` and axios are the `Provider` parameter. Which statuses axios itself rejects is part of that parameter.
- Logging (`console.log`, `console.error`) has no effect on outcomes and is not modelled. The error messages passed to the exceptions are not modelled either; only their status is.
- Environment reads: the credentials are a `Credentials` value passed in, not `process.env`.
- Asynchrony: each `await` is sequential composition of `Step`s.
- Numbers are integers (`max_crawl_pages`, status codes, range bounds, and numbers inside passed-through results). Fractional numbers in a task's `result` are not represented; `getTaskResult` passes that value through without reading it. Weights are exact reals; nothing is claimed about IEEE doubles.
- Task entries in `tasks` are always objects. A `null` entry, which would make `postTask` throw a `TypeError` (also a 500), is not modelled.
- AssocList.Lookup: models own-property access for keys that are not integer-like only. Inherited members (`obj["constructor"]`, `obj["toString"]`), an array's `length`, and the numeric ordering JavaScript gives integer-like keys are not represented. No code path reads such a key: the keys read are `tasks`, `id`, `result` and the weight classes.
- A task whose `id` is JSON `null` is not represented (`TaskItem.id` is present or absent). The code would resolve `postTask` with `null` and then fetch `endpoint/null`, where an absent id gives `endpoint/undefined`.
- Other members of the task objects and the envelope (status_code, status_message, cost, ...) are carried as opaque fields or not at all, because no decision reads them.
- JSON serialisation of payloads: a payload is the JavaScript value passed to the client. `fetchKeywordsData` with an `undefined` keyword is not modelled.
- The controller (`seo.controller.ts`) is not part of this model. It calls service methods that the service does not define (`fetchSiteAuditResult`, `fetchOnPagePages`, `getSummary`, `getTasksReady`, `getLinks`). It also reads fields that `getSiteAudit` never returns.
- `Promise.all`, module wiring, bootstrap and validation pipes are not modelled.
- Weighted scoring, tier bands, provider status-code mapping and poll/backoff loops are not modelled: none of them exists in the code.

=== FILE: assoc_list.dfy ===
/** Ordered key/value lists: the model of a JavaScript object literal's own
    properties with keys that are not integer-like, which keep their
    declaration order. Inherited members (`constructor`, `toString`, ...) and
    index keys are not represented. */
module AssocList {
  import opened Wrappers

  /** `key` is declared by some entry. */
  predicate Declares<V>(entries: seq<(string, V)>, key: string)
  {
    exists j :: 0 <= j < |entries| && entries[j].0 == key
  }

  /** No key is declared twice, as in an object literal. */
  predicate DistinctKeys<V>(entries: seq<(string, V)>)
  {
    forall i, j :: 0 <= i < j < |entries| ==> entries[i].0 != entries[j].0
  }

  /** The keys, in declaration order. */
  function Keys<V>(entries: seq<(string, V)>): seq<string>
  {
    seq(|entries|, i requires 0 <= i < |entries| => entries[i].0)
  }

  /** Own-property access `obj[key]` for a key that is not integer-like: the
      value declared for `key`, or `undefined`. Keys of an object literal are
      distinct, so which of several entries for one key is returned does not
      arise. */
  function Lookup<V>(entries: seq<(string, V)>, key: string): (r: Option<V>)
    ensures r.None? <==> !Declares(entries, key)
    ensures r.Some? ==> exists j :: 0 <= j < |entries| && entries[j] == (key, r.value)
  {
    if entries == [] then None
    else if entries[0].0 == key then Some(entries[0].1)
    else
      var r := Lookup(entries[1..], key);
      assert Declares(entries, key) <==> Declares(entries[1..], key) by {
        if Declares(entries, key) {
          var j :| 0 <= j < |entries| && entries[j].0 == key;
          assert entries[1..][j - 1].0 == key;
        }
        if Declares(entries[1..], key) {
          var j :| 0 <= j < |entries| - 1 && entries[1..][j].0 == key;
          assert entries[j + 1].0 == key;
        }
      }
      assert r.Some? ==> exists j :: 0 <= j < |entries| && entries[j] == (key, r.value) by {
        if r.Some? {
          var j :| 0 <= j < |entries| - 1 && entries[1..][j] == (key, r.value);
          assert entries[j + 1] == (key, r.value);
        }
      }
      r
  }
}

=== FILE: json.dfy ===
/** JSON values as they travel in request payloads and response bodies. */
module Json {
  import opened Wrappers
  import opened AssocList

  /** A JSON value. Numbers are integers: the ones the service builds or
      decides on are integral, and fractional numbers inside passed-through
      results are not represented. */
  datatype Json =
    | Null
    | Bool(b: bool)
    | Num(n: int)
    | Str(s: string)
    | Arr(items: seq<Json>)
    | Obj(fields: seq<(string, Json)>)

  /** The members of a JSON object, in insertion order. */
  type Members = seq<(string, Json)>

  /** Own-property access `j[name]`, for a name that is not integer-like:
      `undefined` unless `j` is an object declaring `name`. An array's
      `length` and inherited members are not represented. */
  function Member(j: Json, name: string): Option<Json>
  {
    if j.Obj? then Lookup(j.fields, name) else None
  }

  /** The JSON array holding the given strings, in order; this is how a
      string list embedded in a payload reaches the provider. */
  function StringArray(xs: seq<string>): (j: Json)
    ensures j.Arr? && |j.items| == |xs|
    ensures forall i :: 0 <= i < |xs| ==> j.items[i] == Str(xs[i])
  {
    if xs == [] then Arr([])
    else Arr([Str(xs[0])] + StringArray(xs[1..]).items)
  }

  /** Reads a JSON array back as a string list; fails if any element is not a
      string. */
  function AsStrings(items: seq<Json>): (r: Option<seq<string>>)
    ensures r.Some? <==> forall i :: 0 <= i < |items| ==> items[i].Str?
    ensures r.Some? ==> |r.value| == |items|
    ensures r.Some? ==> forall i :: 0 <= i < |items| ==> r.value[i] == items[i].s
  {
    if items == [] then Some([])
    else if !items[0].Str? then None
    else match AsStrings(items[1..])
      case None => None
      case Some(rest) => Some([items[0].s] + rest)
  }

  /** A string list survives being embedded as a JSON array. */
  lemma StringArrayRoundTrip(xs: seq<string>)
    ensures AsStrings(StringArray(xs).items) == Some(xs)
  {
    var back := AsStrings(StringArray(xs).items);
    assert back.Some?;
    assert back.value == xs;
  }
}

=== FILE: on_page_benchmark.dfy ===
/** The on-page benchmark: a static rule set made of a weight table and the
    metrics it weights. */
module OnPageBenchmark {
  import opened Wrappers
  import opened AssocList

  /** One metric rule as written in the schema object: a caption (`label`), optionally a
      healthy range, optionally an expected value, and the name of its weight
      class. Range bounds in the schema are all integral. */
  datatype MetricRule = MetricRule(
    caption: string,
    healthyMin: Option<int>,
    healthyMax: Option<int>,
    expected: Option<bool>,
    weight: string)

  /** The whole schema: weight classes to weights, and metric keys to rules,
      each in declaration order. Weights are exact reals. */
  datatype Schema = Schema(weights: seq<(string, real)>, metrics: seq<(string, MetricRule)>)

  /** A metric judged by its healthy range. */
  predicate IsRange(m: MetricRule)
  {
    m.healthyMin.Some? && m.healthyMax.Some? && m.expected.None?
  }

  /** A metric judged by exact match against its expected value. */
  predicate IsExact(m: MetricRule)
  {
    m.healthyMin.None? && m.healthyMax.None? && m.expected.Some?
  }

  /** A range metric has positive bounds, the lower strictly below the upper. */
  predicate BoundsOk(m: MetricRule)
  {
    IsRange(m) ==> 0 < m.healthyMin.value < m.healthyMax.value
  }

  /** A metric is well formed in the context of a weight table. */
  predicate MetricOk(weights: seq<(string, real)>, m: MetricRule)
  {
    && (IsRange(m) || IsExact(m))
    && BoundsOk(m)
    && Declares(weights, m.weight)
  }

  /** The sum of all weights in a table, in table order. */
  function TotalWeight(weights: seq<(string, real)>): real
  {
    if weights == [] then 0.0 else weights[0].1 + TotalWeight(weights[1..])
  }

  /** A well-formed rule set: distinct, strictly positive weight classes;
      distinct metric keys; every metric well formed. */
  predicate WellFormed(s: Schema)
  {
    && DistinctKeys(s.weights)
    && (forall j :: 0 <= j < |s.weights| ==> s.weights[j].1 > 0.0)
    && DistinctKeys(s.metrics)
    && (forall i :: 0 <= i < |s.metrics| ==> MetricOk(s.weights, s.metrics[i].1))
  }

  /** In a well-formed rule set every metric resolves to a strictly positive
      weight. */
  lemma MetricWeightResolves(s: Schema, i: nat)
    requires WellFormed(s)
    requires i < |s.metrics|
    ensures Lookup(s.weights, s.metrics[i].1.weight).Some?
    ensures Lookup(s.weights, s.metrics[i].1.weight).value > 0.0
  {
  }

  /** `OnPageBenchmarkSchema`. */
  const Benchmark: Schema := Schema(
    [("high", 0.7), ("medium", 0.2), ("low", 0.1)],
    [ ("title_length",
       MetricRule("Title length", Some(30), Some(60), None, "low")),
      ("meta_description_length",
       MetricRule("Meta description length", Some(70), Some(160), None, "low")),
      ("h1_present",
       MetricRule("H1 tag present", None, None, Some(true), "medium")),
      ("content_word_count",
       MetricRule("Content word count", Some(300), Some(1500), None, "high")),
      ("internal_links",
       MetricRule("Internal links count", Some(3), Some(15), None, "medium"))
    ])

  /** The weight table is high 0.7, medium 0.2, low 0.1, all strictly
      positive, and the weights sum to exactly 1 over the reals. */
  lemma BenchmarkWeightTable()
    ensures Keys(Benchmark.weights) == ["high", "medium", "low"]
    ensures Lookup(Benchmark.weights, "high") == Some(0.7)
    ensures Lookup(Benchmark.weights, "medium") == Some(0.2)
    ensures Lookup(Benchmark.weights, "low") == Some(0.1)
    ensures forall j :: 0 <= j < |Benchmark.weights| ==> Benchmark.weights[j].1 > 0.0
    ensures TotalWeight(Benchmark.weights) == 1.0
  {
  }

  /** The benchmark's weight classes and metric keys are each declared once. */
  lemma BenchmarkKeysDistinct()
    ensures DistinctKeys(Benchmark.weights)
    ensures DistinctKeys(Benchmark.metrics)
  {
  }

  /** Every benchmark metric is well formed against the benchmark's weights. */
  lemma BenchmarkMetricsOk()
    ensures forall i :: 0 <= i < |Benchmark.metrics| ==> MetricOk(Benchmark.weights, Benchmark.metrics[i].1)
  {
    var w := Benchmark.weights;
    assert Declares(w, "high") by { assert w[0].0 == "high"; }
    assert Declares(w, "medium") by { assert w[1].0 == "medium"; }
    assert Declares(w, "low") by { assert w[2].0 == "low"; }
  }

  /** The benchmark is a well-formed rule set. */
  lemma BenchmarkWellFormed()
    ensures WellFormed(Benchmark)
  {
    BenchmarkKeysDistinct();
    BenchmarkMetricsOk();
  }

  /** Five metrics, in declaration order. */
  lemma BenchmarkMetricOrder()
    ensures Keys(Benchmark.metrics)
         == ["title_length", "meta_description_length", "h1_present", "content_word_count", "internal_links"]
  {
  }

  /** `h1_present` is the only exact-match metric, and it expects `true`. */
  lemma BenchmarkExactMetric()
    ensures forall i :: 0 <= i < |Benchmark.metrics| ==>
              (IsExact(Benchmark.metrics[i].1) <==> Benchmark.metrics[i].0 == "h1_present")
    ensures Lookup(Benchmark.metrics, "h1_present").Some?
    ensures Lookup(Benchmark.metrics, "h1_present").value.expected == Some(true)
  {
  }
}

=== FILE: on_page_input.dfy ===
/** The fields of the on-page input, `CreateOnPageDto`, and their agreement
    with the benchmark's metrics. */
module OnPageInput {
  import opened Wrappers
  import opened AssocList
  import opened OnPageBenchmark

  /** The validator attached to a field. */
  datatype FieldKind = Text | Number | Boolean

  /** The fields of `CreateOnPageDto`, in declaration order. */
  const CreateOnPageFields: seq<(string, FieldKind)> := [
    ("url", Text),
    ("title_length", Number),
    ("meta_description_length", Number),
    ("h1_present", Boolean),
    ("content_word_count", Number),
    ("internal_links", Number)
  ]

  /** A metric can be read from the input: its key is an input field, numeric
      for a range metric and boolean for an exact-match metric. */
  predicate Feeds(fields: seq<(string, FieldKind)>, key: string, m: MetricRule)
  {
    && (IsRange(m) ==> Lookup(fields, key) == Some(Number))
    && (IsExact(m) ==> Lookup(fields, key) == Some(Boolean))
    && Declares(fields, key)
  }

  /** Every benchmark metric can be read from the on-page input. */
  lemma BenchmarkReadsInput()
    ensures forall i :: 0 <= i < |Benchmark.metrics| ==>
              Feeds(CreateOnPageFields, Benchmark.metrics[i].0, Benchmark.metrics[i].1)
  {
  }
}

=== FILE: seo_service.dfy ===
/** The submit/fetch decision logic of the SEO service.

    Every HTTP round trip is an input: a `Provider` maps the request the
    service sends to what the HTTP client hands back. Each operation returns a
    `Step`: its outcome (a resolved value, or the error the promise rejects
    with) together with the requests it sent, in order. */
module SeoService {
  import opened Wrappers
  import opened Json
  import opened AssocList

  const BaseUrl: string := "https://api.dataforseo.com/v3/"

  /** `HttpStatus.OK`; the 500 and 502 statuses are the `Http500` and
      `Http502` faults. */
  const StatusOk: int := 200

  /** The provider credentials, read once from the environment; a variable
      that is not set is `None`. */
  datatype Credentials = Credentials(username: Option<string>, password: Option<string>)

  /** JavaScript truthiness of an environment value: set and non-empty. */
  predicate Truthy(v: Option<string>)
  {
    v.Some? && v.value != ""
  }

  /** The guard `username && password`. */
  predicate HasCredentials(auth: Credentials)
  {
    Truthy(auth.username) && Truthy(auth.password)
  }

  datatype Verb = Post | Get

  /** One call to the HTTP client: verb, URL, payload (none for a GET) and the
      basic-auth credentials attached to it. */
  datatype Request = Request(verb: Verb, url: string, payload: Option<Json>, auth: Credentials)

  /** One element of the envelope's `tasks` array; either field may be
      missing from the JSON. */
  datatype TaskItem = TaskItem(id: Option<string>, result: Option<Json>)

  /** The provider's response envelope: the `tasks` array, if present, and the
      remaining members (version, status_code, cost, ...) untouched. */
  datatype Body = Body(tasks: Option<seq<TaskItem>>, envelope: Members)

  /** An HTTP response: status and parsed body (`data`), which may be absent. */
  datatype Response = Response(status: int, data: Option<Body>)

  /** What awaiting the HTTP client yields: a response, an observable that
      completed without a value, or a rejection (network failure, or a status
      the client itself refuses). */
  datatype Exchange = Replied(response: Response) | NoValue | Rejected

  /** The remote provider together with the HTTP client. */
  type Provider = Request -> Exchange

  /** Errors a service call can throw. `CredentialsMissing` is the plain
      `Error`; `Http500`/`Http502` are `HttpException`s with that status;
      `TypeError` is a property read on `undefined`; `TransportError` is a
      rejection from the HTTP client; `EmptyError` is what `firstValueFrom`
      rejects with when the observable completes without a value. */
  datatype Fault = CredentialsMissing | Http500 | Http502 | TypeError | TransportError | EmptyError

  /** The outcome of an operation and the requests it sent, in order. */
  datatype Step<+T> = Step(outcome: Result<T, Fault>, sent: seq<Request>)

  /** A `catch` block that logs and rethrows every error as a 500. */
  function CatchAll<T>(r: Result<T, Fault>): (c: Result<T, Fault>)
    ensures r.Success? ==> c == r
    ensures r.Failure? ==> c == Failure(Http500)
  {
    match r
    case Success(_) => r
    case Failure(_) => Failure(Http500)
  }

  /** A task id interpolated into a template string: a missing id prints as
      `undefined`. */
  function IdText(id: Option<string>): string
  {
    match id
    case Some(s) => s
    case None => "undefined"
  }

  /** The request `postTask` sends. */
  function SubmitRequest(auth: Credentials, endpoint: string, payload: Json): Request
  {
    Request(Post, endpoint, Some(payload), auth)
  }

  /** The request `getTaskResult` sends: a GET of `endpoint/taskId`. */
  function FetchRequest(auth: Credentials, endpoint: string, taskId: Option<string>): Request
  {
    Request(Get, endpoint + "/" + IdText(taskId), None, auth)
  }

  /** The provider accepted a submission: status 200 and a body carrying a
      non-empty `tasks` array. */
  predicate Accepted(x: Exchange)
  {
    && x.Replied?
    && x.response.status == StatusOk
    && x.response.data.Some?
    && x.response.data.value.tasks.Some?
    && |x.response.data.value.tasks.value| > 0
  }

  /** The first task of an accepted submission. */
  function FirstTask(x: Exchange): TaskItem
    requires Accepted(x)
  {
    x.response.data.value.tasks.value[0]
  }

  /** A fetch reply the service can read: status 200 and a body carrying a
      `tasks` array, possibly empty. */
  predicate Readable(x: Exchange)
  {
    && x.Replied?
    && x.response.status == StatusOk
    && x.response.data.Some?
    && x.response.data.value.tasks.Some?
  }

  /** What a readable fetch reply yields: the first task's `result`, or
      nothing when there is no first task. */
  function FirstResult(x: Exchange): Option<Json>
    requires Readable(x)
  {
    var tasks := x.response.data.value.tasks.value;
    if |tasks| == 0 then None else tasks[0].result
  }

  /** `data?.tasks?.length` read as a JavaScript truth value. */
  predicate TaskCountTruthy(data: Option<Body>)
  {
    match data
    case None => false
    case Some(body) =>
      match body.tasks
      case None => false
      case Some(tasks) => |tasks| != 0
  }

  /** The `try` block of `postTask`, run on the client's reply: the error it
      throws, or the id of the first task. */
  function PostTaskTry(x: Exchange): (r: Result<Option<string>, Fault>)
    ensures r.Success? <==> Accepted(x)
    ensures r.Success? ==> r.value == FirstTask(x).id
    // a reply that is not accepted is the 502 thrown in the try
    ensures x.Replied? && !Accepted(x) ==> r == Failure(Http502)
    ensures x.Rejected? ==> r == Failure(TransportError)
    ensures x.NoValue? ==> r == Failure(EmptyError)
  {
    match x
    case Rejected => Failure(TransportError)
    case NoValue => Failure(EmptyError)
    case Replied(response) =>
      if response.status != StatusOk || !TaskCountTruthy(response.data) then
        Failure(Http502)
      else
        Success(response.data.value.tasks.value[0].id)
  }

  /** `postTask`: submits `payload` to `endpoint` and resolves with the id of
      the first task the provider created. */
  function PostTask(auth: Credentials, provider: Provider, endpoint: string, payload: Json)
    : (r: Step<Option<string>>)
    // missing credentials: plain error, thrown before any request
    ensures !HasCredentials(auth) ==> r == Step(Failure(CredentialsMissing), [])
    // otherwise exactly one POST of the payload
    ensures HasCredentials(auth) ==> r.sent == [SubmitRequest(auth, endpoint, payload)]
    ensures r.outcome.Success? <==>
              HasCredentials(auth) && Accepted(provider(SubmitRequest(auth, endpoint, payload)))
    // only the first task's id is read
    ensures r.outcome.Success? ==>
              r.outcome.value == FirstTask(provider(SubmitRequest(auth, endpoint, payload))).id
    // everything inside the try, the 502 included, surfaces as a 500
    ensures HasCredentials(auth) && r.outcome.Failure? ==> r.outcome.error == Http500
  {
    if !HasCredentials(auth) then
      Step(Failure(CredentialsMissing), [])
    else
      var request := SubmitRequest(auth, endpoint, payload);
      Step(CatchAll(PostTaskTry(provider(request))), [request])
  }

  /** Tasks after the first are never read: a reply whose `tasks` array
      starts with `first` yields `first.id`, whatever follows. */
  lemma PostTaskIgnoresLaterTasks(auth: Credentials, provider: Provider, endpoint: string, payload: Json,
                                  first: TaskItem, later: seq<TaskItem>, envelope: Members)
    requires HasCredentials(auth)
    requires provider(SubmitRequest(auth, endpoint, payload))
          == Replied(Response(StatusOk, Some(Body(Some([first] + later), envelope))))
    ensures PostTask(auth, provider, endpoint, payload).outcome == Success(first.id)
  {
  }

  /** The `try` block of `getTaskResult`, run on the client's reply. */
  function GetTaskResultTry(x: Exchange): (r: Result<Option<Json>, Fault>)
    ensures r.Success? <==> Readable(x)
    ensures r.Success? ==> r.value == FirstResult(x)
    ensures x.Replied? && x.response.status != StatusOk ==> r == Failure(Http502)
    // a 200 reply without a body or without `tasks` fails on the property read
    ensures x.Replied? && x.response.status == StatusOk && !Readable(x) ==> r == Failure(TypeError)
    ensures x.Rejected? ==> r == Failure(TransportError)
    ensures x.NoValue? ==> r == Failure(EmptyError)
  {
    match x
    case Rejected => Failure(TransportError)
    case NoValue => Failure(EmptyError)
    case Replied(response) =>
      if response.status != StatusOk then Failure(Http502)
      else
        match response.data
        // reading `tasks` of undefined
        case None => Failure(TypeError)
        case Some(body) =>
          match body.tasks
          // indexing undefined
          case None => Failure(TypeError)
          // `tasks[0]?.result`
          case Some(tasks) => Success(if |tasks| == 0 then None else tasks[0].result)
  }

  /** `getTaskResult`: fetches `endpoint/taskId` and resolves with the first
      task's `result`, `None` standing for `undefined`. */
  function GetTaskResult(auth: Credentials, provider: Provider, endpoint: string, taskId: Option<string>)
    : (r: Step<Option<Json>>)
    // exactly one GET of `endpoint/taskId`, whatever the credentials
    ensures r.sent == [FetchRequest(auth, endpoint, taskId)]
    ensures r.outcome.Success? <==> Readable(provider(FetchRequest(auth, endpoint, taskId)))
    ensures r.outcome.Success? ==> r.outcome.value == FirstResult(provider(FetchRequest(auth, endpoint, taskId)))
    // every failure, the 502 included, surfaces as a 500
    ensures r.outcome.Failure? ==> r.outcome.error == Http500
  {
    var request := FetchRequest(auth, endpoint, taskId);
    Step(CatchAll(GetTaskResultTry(provider(request))), [request])
  }

  /** An empty `tasks` array is "no result", not an error. */
  lemma EmptyTasksFetchNothing(auth: Credentials, provider: Provider, endpoint: string, taskId: Option<string>,
                               envelope: Members)
    requires provider(FetchRequest(auth, endpoint, taskId)) == Replied(Response(StatusOk, Some(Body(Some([]), envelope))))
    ensures GetTaskResult(auth, provider, endpoint, taskId).outcome == Success(None)
  {
  }

  /** The outcome of a fetch depends on the reply alone: the credentials only
      travel with the request. */
  lemma FetchIgnoresCredentials(auth1: Credentials, auth2: Credentials, provider1: Provider, provider2: Provider,
                                endpoint: string, taskId: Option<string>)
    requires provider1(FetchRequest(auth1, endpoint, taskId)) == provider2(FetchRequest(auth2, endpoint, taskId))
    ensures GetTaskResult(auth1, provider1, endpoint, taskId).outcome
         == GetTaskResult(auth2, provider2, endpoint, taskId).outcome
  {
  }

  /** The payload of a keyword lookup. */
  function KeywordPayload(keyword: string): Json
  {
    Obj([("keyword", Str(keyword))])
  }

  /** The request `fetchKeywordsData` sends. */
  function KeywordRequest(auth: Credentials, keyword: string): Request
  {
    Request(Post, BaseUrl + "keywords_data", Some(KeywordPayload(keyword)), auth)
  }

  /** The `try` block of `fetchKeywordsData`: the credential check sits inside
      it, and `response?.status` tolerates an empty observable. */
  function FetchKeywordsDataTry(auth: Credentials, provider: Provider, keyword: string)
    : (r: Step<Option<Body>>)
    ensures !HasCredentials(auth) ==> r == Step(Failure(CredentialsMissing), [])
    ensures HasCredentials(auth) ==> r.sent == [KeywordRequest(auth, keyword)]
    ensures r.outcome.Success? <==>
              && HasCredentials(auth)
              && provider(KeywordRequest(auth, keyword)).Replied?
              && provider(KeywordRequest(auth, keyword)).response.status == StatusOk
    ensures r.outcome.Success? ==> r.outcome.value == provider(KeywordRequest(auth, keyword)).response.data
    // no response, or a status other than 200, is the 502 thrown in the try
    ensures (HasCredentials(auth) && !provider(KeywordRequest(auth, keyword)).Rejected? && r.outcome.Failure?)
            ==> r.outcome.error == Http502
    ensures (HasCredentials(auth) && provider(KeywordRequest(auth, keyword)).Rejected?)
            ==> r.outcome == Failure(TransportError)
  {
    if !HasCredentials(auth) then
      Step(Failure(CredentialsMissing), [])
    else
      var request := KeywordRequest(auth, keyword);
      var outcome :=
        match provider(request)
        case Rejected => Failure(TransportError)
        case NoValue => Failure(Http502)
        case Replied(response) =>
          // `!response?.status || response.status !== OK`: a status of 0 is falsy
          if response.status == 0 || response.status != StatusOk then Failure(Http502)
          else Success(response.data);
      Step(outcome, [request])
  }

  /** `fetchKeywordsData`: posts the keyword and resolves with the response
      body as received. */
  function FetchKeywordsData(auth: Credentials, provider: Provider, keyword: string): (r: Step<Option<Body>>)
    // missing credentials: no request, and the error becomes a 500
    ensures !HasCredentials(auth) ==> r == Step(Failure(Http500), [])
    ensures HasCredentials(auth) ==> r.sent == [KeywordRequest(auth, keyword)]
    ensures r.outcome.Success? <==>
              && HasCredentials(auth)
              && provider(KeywordRequest(auth, keyword)).Replied?
              && provider(KeywordRequest(auth, keyword)).response.status == StatusOk
    // on success the body is passed through unchanged
    ensures r.outcome.Success? ==> r.outcome.value == provider(KeywordRequest(auth, keyword)).response.data
    ensures r.outcome.Failure? ==> r.outcome.error == Http500
  {
    var attempt := FetchKeywordsDataTry(auth, provider, keyword);
    Step(CatchAll(attempt.outcome), attempt.sent)
  }

  /** What one submit-then-fetch flow must do: no request without
      credentials; one POST; a GET of the id the POST returned only when the
      POST was accepted; and the fetch's outcome as the flow's. */
  predicate SubmitThenFetchSpec(r: Step<Option<Json>>, auth: Credentials, provider: Provider,
                                postEndpoint: string, getEndpoint: string, payload: Json)
  {
    var post := SubmitRequest(auth, postEndpoint, payload);
    if !HasCredentials(auth) then
      r == Step(Failure(CredentialsMissing), [])
    else if !Accepted(provider(post)) then
      r == Step(Failure(Http500), [post])
    else
      var get := FetchRequest(auth, getEndpoint, FirstTask(provider(post)).id);
      && r.sent == [post, get]
      && (r.outcome.Success? <==> Readable(provider(get)))
      && (r.outcome.Success? ==> r.outcome.value == FirstResult(provider(get)))
      && (r.outcome.Failure? ==> r.outcome.error == Http500)
  }

  /** `await postTask(...)` followed by `getTaskResult(...)` with the returned
      id; a rejected submission propagates and nothing is fetched. */
  function SubmitThenFetch(auth: Credentials, provider: Provider, postEndpoint: string, getEndpoint: string,
                           payload: Json): (r: Step<Option<Json>>)
    ensures SubmitThenFetchSpec(r, auth, provider, postEndpoint, getEndpoint, payload)
    ensures r.outcome.Failure? ==> r.outcome.error == CredentialsMissing || r.outcome.error == Http500
  {
    var submitted := PostTask(auth, provider, postEndpoint, payload);
    match submitted.outcome
    case Failure(e) => Step(Failure(e), submitted.sent)
    case Success(taskId) =>
      var fetched := GetTaskResult(auth, provider, getEndpoint, taskId);
      Step(fetched.outcome, submitted.sent + fetched.sent)
  }

  /** `postTask` does not reject a first task without an id: it resolves with
      `undefined`, and the fetch that follows asks for `endpoint/undefined`. */
  lemma MissingIdFetchesUndefined(auth: Credentials, provider: Provider, postEndpoint: string,
                                  getEndpoint: string, payload: Json, result: Option<Json>,
                                  later: seq<TaskItem>, envelope: Members)
    requires HasCredentials(auth)
    requires provider(SubmitRequest(auth, postEndpoint, payload))
          == Replied(Response(StatusOk, Some(Body(Some([TaskItem(None, result)] + later), envelope))))
    ensures |SubmitThenFetch(auth, provider, postEndpoint, getEndpoint, payload).sent| == 2
    ensures SubmitThenFetch(auth, provider, postEndpoint, getEndpoint, payload).sent[1].url
         == getEndpoint + "/undefined"
  {
  }

  const InstantPagesEndpoint: string := BaseUrl + "on_page/instant_pages"
  const TaskPostEndpoint: string := BaseUrl + "on_page/task_post"
  const TaskGetEndpoint: string := BaseUrl + "on_page/task_get"
  const ContentAnalyzeEndpoint: string := BaseUrl + "content_analysis/analyze"
  const ContentCompetitorsEndpoint: string := BaseUrl + "content_analysis/competitors"

  /** The crawl limit `getSiteAudit` sends when the caller gives none. */
  const DefaultMaxCrawlPages: int := 50

  /** `getPageSchema`: one instant-pages task for `url`, fetched from the same
      endpoint. */
  function GetPageSchema(auth: Credentials, provider: Provider, url: string): (r: Step<Option<Json>>)
    ensures SubmitThenFetchSpec(r, auth, provider, InstantPagesEndpoint, InstantPagesEndpoint,
                                Arr([Obj([("target", Str(url))])]))
  {
    SubmitThenFetch(auth, provider, InstantPagesEndpoint, InstantPagesEndpoint,
                    Arr([Obj([("target", Str(url))])]))
  }

  /** The crawl payload of `getSiteAudit`: a one-element array whose task
      names the domain and the crawl limit. */
  function SiteAuditPayload(domain: string, maxPages: Option<int>): (j: Json)
    ensures j.Arr? && |j.items| == 1
    // the task object has exactly these members, in this order
    ensures j.items[0].Obj? && Keys(j.items[0].fields) == ["target", "max_crawl_pages"]
    ensures Member(j.items[0], "target") == Some(Str(domain))
    ensures maxPages.Some? ==> Member(j.items[0], "max_crawl_pages") == Some(Num(maxPages.value))
    ensures maxPages.None? ==> Member(j.items[0], "max_crawl_pages") == Some(Num(50))
  {
    var pages := match maxPages case Some(n) => n case None => DefaultMaxCrawlPages;
    var fields := [("target", Str(domain)), ("max_crawl_pages", Num(pages))];
    assert "target"[0] != "max_crawl_pages"[0];
    assert Lookup(fields[1..], "max_crawl_pages") == Some(Num(pages));
    Arr([Obj(fields)])
  }

  /** `getSiteAudit`: posts a crawl task to `on_page/task_post` and fetches it
      from `on_page/task_get`. */
  function GetSiteAudit(auth: Credentials, provider: Provider, domain: string, maxPages: Option<int>)
    : (r: Step<Option<Json>>)
    ensures SubmitThenFetchSpec(r, auth, provider, TaskPostEndpoint, TaskGetEndpoint,
                                SiteAuditPayload(domain, maxPages))
  {
    SubmitThenFetch(auth, provider, TaskPostEndpoint, TaskGetEndpoint, SiteAuditPayload(domain, maxPages))
  }

  /** Leaving the crawl limit out is the same as asking for 50 pages. */
  lemma SiteAuditDefaultsTo50(auth: Credentials, provider: Provider, domain: string)
    ensures GetSiteAudit(auth, provider, domain, None) == GetSiteAudit(auth, provider, domain, Some(50))
  {
  }

  /** `getContentAnalysis`: one analysis task for `url`, fetched from the same
      endpoint. */
  function GetContentAnalysis(auth: Credentials, provider: Provider, url: string): (r: Step<Option<Json>>)
    ensures SubmitThenFetchSpec(r, auth, provider, ContentAnalyzeEndpoint, ContentAnalyzeEndpoint,
                                Arr([Obj([("url", Str(url))])]))
  {
    SubmitThenFetch(auth, provider, ContentAnalyzeEndpoint, ContentAnalyzeEndpoint,
                    Arr([Obj([("url", Str(url))])]))
  }

  /** The payload of `getEntityGap`: a one-element array whose task names
      the target and carries the competitor list. */
  function EntityGapPayload(target: string, competitors: seq<string>): (j: Json)
    ensures j.Arr? && |j.items| == 1
    // the task object has exactly these members, in this order
    ensures j.items[0].Obj? && Keys(j.items[0].fields) == ["target", "targets_compare"]
    ensures Member(j.items[0], "target") == Some(Str(target))
    ensures Member(j.items[0], "targets_compare").Some?
    ensures Member(j.items[0], "targets_compare").value.Arr?
    ensures AsStrings(Member(j.items[0], "targets_compare").value.items) == Some(competitors)
  {
    StringArrayRoundTrip(competitors);
    var fields := [("target", Str(target)), ("targets_compare", StringArray(competitors))];
    assert |"target"| != |"targets_compare"|;
    assert Lookup(fields[1..], "targets_compare") == Some(StringArray(competitors));
    Arr([Obj(fields)])
  }

  /** `getEntityGap`: one competitor-comparison task, fetched from the same
      endpoint; the competitor list travels in the payload unchanged. */
  function GetEntityGap(auth: Credentials, provider: Provider, target: string, competitors: seq<string>)
    : (r: Step<Option<Json>>)
    ensures SubmitThenFetchSpec(r, auth, provider, ContentCompetitorsEndpoint, ContentCompetitorsEndpoint,
                                EntityGapPayload(target, competitors))
    // the submitted task carries the competitor list unchanged
    ensures HasCredentials(auth) ==>
              && |r.sent| >= 1
              && r.sent[0].payload.Some?
              && r.sent[0].payload.value.Arr?
              && |r.sent[0].payload.value.items| == 1
              && Member(r.sent[0].payload.value.items[0], "targets_compare").Some?
              && Member(r.sent[0].payload.value.items[0], "targets_compare").value.Arr?
              && AsStrings(Member(r.sent[0].payload.value.items[0], "targets_compare").value.items) == Some(competitors)
  {
    SubmitThenFetch(auth, provider, ContentCompetitorsEndpoint, ContentCompetitorsEndpoint,
                    EntityGapPayload(target, competitors))
  }
}

=== FILE: wrappers.dfy ===
/** Option and Result, shared by the rest of the model: `Option` stands
    for a JavaScript value that may be `undefined`, and `Result` for a promise
    that either resolves with a value or rejects with a thrown error. */
module Wrappers {

  datatype Option<+T> = None | Some(value: T)

  datatype Result<+T, +E> = Success(value: T) | Failure(error: E)
}
